=== FILE: README.md ===
# NETCONF session adapter (Exscript) in Dafny

This project models Exscript's NETCONF protocol adapter, the `Netconf` class. The adapter opens a session to a network device through the ncclient library. It chooses which credentials to send from the account it holds. It absorbs a rejected authentication during `connect` and lets it escape from `login`. Requests are sent through the session, and every reply is normalised to text, stored and handed to the subscribers as one line. `send` then returns nothing and `execute` returns `(0, text)`.

ncclient is not modelled. It is a record of total functions supplied by the caller (`Transport.Ncclient`):
- the handshake returns a manager, raises `AuthenticationError`, or raises anything else;
- `to_ele` converts text to XML;
- `dispatch` sends a request;
- `close_session` ends the session.

Any behaviour of the library during one call is one choice of these functions, so every lemma holds for all of them. Across a sequence of calls, each call carries its own choice, so the library may answer the same request differently over time. The temporary key file's name is a parameter of the same record.

Every operation is a pure function from the adapter's state (`Netconf.Session`) to a `Step`. A `Step` holds the new state, the value returned or the exception raised (`Result<T, Error>`), and the lines delivered to subscribers during the call. Python exceptions are `Error` values:
- `AuthenticationFailed` is ncclient's `AuthenticationError`;
- `TransportFailure` is any other library exception;
- `MalformedXml` means `to_ele` rejected the payload;
- `NoAttribute` is Python's `AttributeError`, for example calling `dispatch` on a manager that is `None`.

Python truthiness is written out. An optional string attribute counts as present only when it is set and non-empty. A port of `None` or `0` becomes 830. An account object and a manager object are always truthy.

Modules:
- `Wrappers`: `Option` and `Result`.
- `Transport`: the library's interface, replies, handles and errors.
- `Credentials`: the credential-selection policy of the handshake.
- `Netconf`: the adapter's state and operations.
- `SessionTrace`: a caller makes a sequence of calls, catching each exception and continuing from the state the failed call left. Each call meets the library as it behaves at that moment. Its lemmas state what holds across every such sequence.

Where a reader might expect otherwise, the model follows the code. The one exception is the handshake's key-file cleanup, listed under Findings.
- `close` does not clear `manager`. Whether a second `close` fails is up to the library, and the adapter does not treat close as terminal.
- Using the session before one exists raises Python's `AttributeError` on `None`. There is no dedicated invalid-state error.
- A `connect` that fails for a reason other than authentication still records the new host and port. It keeps whatever manager the adapter held before.
- A port of `0` is replaced by 830, the same as a missing port.
- A payload that is not well-formed XML fails before the adapter checks for a session.

## Model

| member | source | states |
|---|---|---|
| Credentials.Kwargs | Exscript/protocols/netconf.py:35-44 | The username is sent exactly when an account with a non-empty name is held. A key file is sent exactly when such an account also has a non-empty key. A password is sent exactly when it is non-empty and there is no key. Key and password are never sent together, nothing else is sent, and each value is the account's own. |
| Credentials.KwargsFollowPolicy | Exscript/protocols/netconf.py:37-44 | The credential read back from the arguments is the one the resolution order picks, for every account. The order is key, then password, then username alone, and anonymous without a name. |
| Credentials.AnonymousWithoutName | Exscript/protocols/netconf.py:35-37 | With no account, or a name that is missing or empty, no credential arguments at all are sent. |
| Credentials.KeyBeatsPassword | Exscript/protocols/netconf.py:39-42 | With a name and a non-empty key, exactly the username and the key file are sent, and never the password, even when one is set. |
| Credentials.PasswordOrUsernameOnly | Exscript/protocols/netconf.py:39-44 | With a name and no key, the arguments are exactly username and password when a password is set, and the username alone otherwise. |
| Netconf.Init | Exscript/protocols/netconf.py:21-27 | A new adapter holds no manager and no account; host, port and response start unset. |
| Netconf.ConnectAndLogin | Exscript/protocols/netconf.py:34-56 | The intended handshake succeeds exactly when the library returns a manager, and yields that manager. It raises `AuthenticationFailed` exactly when the library rejects the credentials. Any other library failure escapes as a transport failure carrying the library's reason. |
| Netconf.ConnectAndLoginAsWritten | Exscript/protocols/netconf.py:45-56 | The handshake as written differs from the intended one exactly when the library accepted a key login and the account has no `key_file` attribute. It then raises an `AttributeError` in place of returning the manager. |
| Netconf.KeyedHandshakeDropsSession | Exscript/protocols/netconf.py:40-55 | A concrete account with a key and no `key_file` attribute, accepted by the library: the as-written handshake raises while the intended one returns the manager. |
| Netconf.ConnectHook | Exscript/protocols/netconf.py:59-71 | The host and the port are recorded, with 830 when the port is missing or 0. Then, by the library's handshake outcome: a manager returns true and is stored; a rejected authentication returns true and leaves no session; any other failure escapes as that transport failure with the previous manager kept. Account and response are untouched and nothing is notified. |
| Netconf.GetResponse | Exscript/protocols/netconf.py:74-80 | The response becomes the XML of an RPC reply or the string form of any other reply. Subscribers get exactly one line, the response followed by a newline, and nothing else about the adapter changes. |
| Netconf.Dispatch | Exscript/protocols/netconf.py:83-87 | The call succeeds exactly when the payload converts to XML, a manager exists and the library answers. A malformed payload fails first, then a missing manager. A failure of the library's dispatch escapes as a transport failure carrying its reason. On failure the state and the subscribers are untouched. On success one line is notified, and the response is returned unless the result is ignored. |
| Netconf.Login | Exscript/protocols/netconf.py:90-94 | With a session held, nothing changes. Otherwise the account is stored before the handshake, and the session opens exactly when the library accepts that account's credentials, storing the library's manager. A rejection escapes as `AuthenticationFailed` and any other library failure as a transport failure with its reason, both with no session and the new account kept. |
| Netconf.Send | Exscript/protocols/netconf.py:97-98 | Send returns nothing even when a reply arrives. It still notifies exactly once, with the same state change, notification and error as a dispatch whose result is wanted. It fails without a session. |
| Netconf.Execute | Exscript/protocols/netconf.py:101-103 | Execute returns `(0, text)`. The text is the stored response, and the single notified line is that text plus a newline. It fails exactly when dispatch fails, with the same error and the same notifications, so a failed execute notifies nothing. It always fails without a session. |
| Netconf.Close | Exscript/protocols/netconf.py:106-107 | Close fails with an `AttributeError` without a manager. Otherwise it succeeds exactly when the library's session teardown does, and a teardown failure escapes as a transport failure with its reason. The adapter's state never changes and nothing is notified. |
| SessionTrace.Apply | Exscript/protocols/netconf.py:59-107 | One call notifies exactly once if it is a successful request and never otherwise. Only connect changes host and port. Only connect and login can change the manager or the account, and once a session is held only connect can. Only requests change the response. |
| SessionTrace.OneLinePerSuccessfulRequest | Exscript/protocols/netconf.py:83-98 | Over any sequence of calls, subscribers receive as many lines as there were successful requests. Requests whose result was ignored still count. |
| SessionTrace.RunComposes | Exscript/protocols/netconf.py:74-87 | Running two sequences of calls one after the other equals running their concatenation. The later calls' lines follow the earlier calls' lines, with nothing dropped, added or reordered. |
| SessionTrace.CoherentStep | Exscript/protocols/netconf.py:74-87 | Any single call keeps two facts true: every notified line ends in a newline, and the last line is the stored response plus a newline. |
| SessionTrace.LogStaysCoherent | Exscript/protocols/netconf.py:74-87 | Across any sequence of calls, failures included, the last line the subscribers saw is the stored response plus a newline. |
| SessionTrace.FreshAdapterCoherent | Exscript/protocols/netconf.py:74-80 | From a freshly built adapter, any sequence of calls leaves the notification log coherent with the stored response. |
| SessionTrace.SessionSticksWithoutConnect | Exscript/protocols/netconf.py:90-107 | Once a session is held, no sequence of logins, requests and closes changes the manager, the account, the host or the port. |
| SessionTrace.DispatchIsStable | Exscript/protocols/netconf.py:74-87 | Repeating a successful command over the same session against a library that answers the same way gives the same normalised text, the same notified line and the same state. |

## Left out

- The ncclient library (`manager.connect`, `manager.dispatch`, `close_session`, `to_ele`) is network and XML code and is not part of this model. Each is an arbitrary total function. `to_ele` applied to an element is taken to return that element.
- Temporary key files (`get_tempfile`, netconf.py:10-13) are file I/O and are not modelled. The code writes the key into a buffered temporary file and does not flush it before the handshake opens that file by name; the model does not capture whether the library can read the key, nor when the file is deleted. Only the file's name reaches the handshake arguments, as a parameter.
- Netconf.ConnectHook: uses the corrected handshake (`Netconf.ConnectAndLogin`, see Findings). With a key login, an account without a `key_file` attribute, and a library that accepts the handshake, the code raises `AttributeError` and keeps the previous manager. The model instead returns true and stores the new manager.
- Netconf.Login: uses the corrected handshake (`Netconf.ConnectAndLogin`, see Findings). With a key login, an account without a `key_file` attribute, and a library that accepts the handshake, the code raises `AttributeError` and leaves no session. The model instead succeeds and stores the new manager.
- Netconf.ConnectAndLogin: does not model closing the temporary key file, because that has no effect on the handshake's outcome. The model makes no claim that key material is cleaned up.
- The `Protocol` base class is not part of this model. Its constructor keyword arguments and its `data_received_event` machinery are left out. Subscribers are the list of lines each call returns, and an exception raised by a subscriber is not modelled. The model starts with host, port and response unset, since the base class, not this adapter, would set them.
- The account manager and the TACACS lock (`src/Exscript/Interpreter/stdlib/Sys/tacacs_lock.py`) are left out. They are cross-task locking, which is concurrency, and the account manager's source is not part of this model.
- The unused attributes `sock`, `shell` and `cancel` are left out, and so is the no-op `autoinit`.
- Parameters the code accepts but never reads are dropped: `app_account` and `flush` of `login`, the extra arguments of `execute`. `force` of `close` is accepted and ignored, as in the code.

## Findings

| source | as written | input that shows it | evidently intended | confidence | as-written member | corrected member |
|---|---|---|---|---|---|---|
| Exscript/protocols/netconf.py:51-55 | After a successful key login, the code closes `self.account.key_file` and catches only `FileNotFoundError`. | An account named `admin` with key `private-key` and no `key_file` attribute, and a library that accepts the handshake. Python raises `AttributeError` and drops the manager the library just opened. | Close the local temporary file `key_file`, then return the manager. | medium, not executed (the account class is not part of this model) | Netconf.ConnectAndLoginAsWritten | Netconf.ConnectAndLogin |

=== FILE: credentials.dfy ===
/** Which credentials the NETCONF adapter hands to the handshake, given the
    account it holds (`Netconf._ncclient_connect_and_login`, the part that
    builds the keyword arguments). */
module Credentials {
  import opened Wrappers

  /** An account record as the adapter reads it. Each attribute is `None` when
      it is missing or set to `None`. `hasKeyFile` says whether the object also
      carries a `key_file` attribute. */
  datatype Account = Account(
    name: Option<string>,
    password: Option<string>,
    key: Option<string>,
    hasKeyFile: bool)

  const UsernameArg := "username"
  const KeyFileArg := "key_filename"
  const PasswordArg := "password"

  /** Python truthiness of an optional string attribute. */
  predicate Truthy(v: Option<string>) {
    v.Some? && v.value != ""
  }

  /** The account is usable for authentication: present, with a name. */
  predicate Named(account: Option<Account>) {
    account.Some? && Truthy(account.value.name)
  }

  /** The keyword arguments sent to `manager.connect`. The key is written to a
      temporary file named `keyFileName` and that name is sent instead. */
  function Kwargs(account: Option<Account>, keyFileName: string): (kw: map<string, string>)
    ensures kw.Keys <= {UsernameArg, KeyFileArg, PasswordArg}
    ensures UsernameArg in kw <==> Named(account)
    ensures UsernameArg in kw ==> kw[UsernameArg] == account.value.name.value
    ensures KeyFileArg in kw <==> Named(account) && Truthy(account.value.key)
    ensures KeyFileArg in kw ==> kw[KeyFileArg] == keyFileName
    ensures PasswordArg in kw <==>
              Named(account) && !Truthy(account.value.key) && Truthy(account.value.password)
    ensures PasswordArg in kw ==> kw[PasswordArg] == account.value.password.value
    ensures !(KeyFileArg in kw && PasswordArg in kw)
  {
    if Named(account) then
      var a := account.value;
      var user := map[UsernameArg := a.name.value];
      if Truthy(a.key) then user[KeyFileArg := keyFileName]
      else if Truthy(a.password) then user[PasswordArg := a.password.value]
      else user
    else
      map[]
  }

  /** The kind of authentication a handshake attempts. */
  datatype Credential =
    | Anonymous
    | UsernameOnly(user: string)
    | KeyAuth(user: string, keyFile: string)
    | PasswordAuth(user: string, password: string)

  /** Which credential an account yields, stated on credentials rather than
      on keyword arguments: key before password before username alone;
      nothing without a name. */
  function Policy(account: Option<Account>, keyFileName: string): Credential {
    if !Named(account) then Anonymous
    else if Truthy(account.value.key) then KeyAuth(account.value.name.value, keyFileName)
    else if Truthy(account.value.password) then
      PasswordAuth(account.value.name.value, account.value.password.value)
    else UsernameOnly(account.value.name.value)
  }

  /** Reads the credential back off a set of keyword arguments. */
  function Classify(kw: map<string, string>): Credential {
    if UsernameArg !in kw then Anonymous
    else if KeyFileArg in kw then KeyAuth(kw[UsernameArg], kw[KeyFileArg])
    else if PasswordArg in kw then PasswordAuth(kw[UsernameArg], kw[PasswordArg])
    else UsernameOnly(kw[UsernameArg])
  }

  /** The arguments the adapter builds carry exactly the credential `Policy`
      picks: key before password before username alone, and
      nothing without a name. */
  lemma KwargsFollowPolicy(account: Option<Account>, keyFileName: string)
    ensures Classify(Kwargs(account, keyFileName)) == Policy(account, keyFileName)
  {
  }

  /** With no account or no name, the handshake is anonymous. */
  lemma AnonymousWithoutName(account: Option<Account>, keyFileName: string)
    requires !Named(account)
    ensures Kwargs(account, keyFileName) == map[]
  {
  }

  /** A key wins over a password, whatever the password is. */
  lemma KeyBeatsPassword(account: Option<Account>, keyFileName: string)
    requires Named(account) && Truthy(account.value.key)
    ensures Kwargs(account, keyFileName) ==
              map[UsernameArg := account.value.name.value, KeyFileArg := keyFileName]
  {
  }

  /** Without a key, a password is sent beside the username; with neither,
      only the username. */
  lemma PasswordOrUsernameOnly(account: Option<Account>, keyFileName: string)
    requires Named(account) && !Truthy(account.value.key)
    ensures Truthy(account.value.password) ==>
              Kwargs(account, keyFileName) ==
                map[UsernameArg := account.value.name.value,
                    PasswordArg := account.value.password.value]
    ensures !Truthy(account.value.password) ==>
              Kwargs(account, keyFileName) == map[UsernameArg := account.value.name.value]
  {
  }
}

=== FILE: netconf.dfy ===
/** The NETCONF session adapter: its state, the handshake, connect, login,
    dispatch with subscriber notification, send, execute and close. Every
    operation is a pure function from the adapter's state to a `Step`: the
    new state, the value returned or the exception raised, and the lines
    delivered to subscribers during the call. */
module Netconf {
  import opened Wrappers
  import opened Transport
  import opened Credentials

  /** The adapter's attributes. `manager` is `None` while no session is held;
      `response` is `None` until the first reply arrives. */
  datatype Session = Session(
    host: Option<string>,
    port: Option<int>,
    manager: Option<Handle>,
    account: Option<Account>,
    response: Option<string>)

  /** One call on the adapter: the state it leaves, what it returned or
      raised, and the notifications it delivered, in order. */
  datatype Step<+T> = Step(session: Session, outcome: Result<T, Error>, notified: seq<string>)

  /** The port used when the caller gives none (or gives 0). */
  const DefaultPort := 830

  /** A live session is held. */
  predicate HasSession(s: Session) {
    s.manager.Some?
  }

  /** A freshly constructed adapter: no session, no account, no reply yet. */
  function Init(): (s: Session)
    ensures !HasSession(s) && s.account.None? && s.response.None?
    ensures s.host.None? && s.port.None?
  {
    Session(None, None, None, None, None)
  }

  /** The arguments of `manager.connect` for the adapter's current host, port
      and account; the host key is never verified. */
  function HandshakeArgs(s: Session, nc: Ncclient): ConnectArgs {
    ConnectArgs(s.host, s.port, false, Kwargs(s.account, nc.tempFileName))
  }

  /** The handshake as written: after a successful handshake that used a key
      file, it closes the ACCOUNT's `key_file` attribute rather than the
      temporary file it created. When the account has no such attribute the
      AttributeError escapes, and the manager just opened is dropped. */
  function ConnectAndLoginAsWritten(s: Session, nc: Ncclient): (r: Result<Handle, Error>)
    ensures !nc.connect(HandshakeArgs(s, nc)).Connected? ==> r == ConnectAndLogin(s, nc)
    ensures r.Ok? ==> r == ConnectAndLogin(s, nc)
    ensures r != ConnectAndLogin(s, nc) <==>
              && nc.connect(HandshakeArgs(s, nc)).Connected?
              && Named(s.account) && Truthy(s.account.value.key)
              && !s.account.value.hasKeyFile
    ensures r != ConnectAndLogin(s, nc) ==> r == Err(NoAttribute("Account", "key_file"))
  {
    var args := HandshakeArgs(s, nc);
    match nc.connect(args)
    case Connected(h) =>
      if KeyFileArg in args.kwargs && !s.account.value.hasKeyFile then
        Err(NoAttribute("Account", "key_file"))
      else
        Ok(h)
    case AuthRejected => Err(AuthenticationFailed)
    case Refused(reason) => Err(TransportFailure(reason))
  }

  /** The handshake as intended (closing the temporary key file it created,
      which has no effect on the outcome): it returns exactly what the
      library's handshake produced, with authentication rejection kept
      distinct from every other failure. */
  function ConnectAndLogin(s: Session, nc: Ncclient): (r: Result<Handle, Error>)
    ensures r.Ok? <==> nc.connect(HandshakeArgs(s, nc)).Connected?
    ensures r.Ok? ==> r.value == nc.connect(HandshakeArgs(s, nc)).handle
    ensures r == Err(AuthenticationFailed) <==> nc.connect(HandshakeArgs(s, nc)).AuthRejected?
    ensures r.Err? ==> r.error.AuthenticationFailed? || r.error.TransportFailure?
    ensures nc.connect(HandshakeArgs(s, nc)).Refused? ==>
              r == Err(TransportFailure(nc.connect(HandshakeArgs(s, nc)).reason))
  {
    match nc.connect(HandshakeArgs(s, nc))
    case Connected(h) => Ok(h)
    case AuthRejected => Err(AuthenticationFailed)
    case Refused(reason) => Err(TransportFailure(reason))
  }

  /** An account that logs in with a key and has no `key_file` attribute;
      nothing in the adapter sets one. */
  const KeyedAccount := Account(Some("admin"), Some("secret"), Some("private-key"), false)

  /** The handshake as written loses a session the library opened: with the
      keyed account above and a library that accepts it, the as-written
      handshake raises an AttributeError while the intended one returns the
      library's manager. */
  lemma KeyedHandshakeDropsSession(nc: Ncclient, h: Handle)
    requires nc.connect(HandshakeArgs(Init().(account := Some(KeyedAccount)), nc)) == Connected(h)
    ensures ConnectAndLoginAsWritten(Init().(account := Some(KeyedAccount)), nc)
              == Err(NoAttribute("Account", "key_file"))
    ensures ConnectAndLogin(Init().(account := Some(KeyedAccount)), nc) == Ok(h)
  {
  }

  /** Connects to `hostname`. Host and port are recorded before the handshake.
      A rejected authentication is absorbed: the call still returns true and
      leaves no session. Any other failure escapes and leaves the previous
      manager in place. */
  function ConnectHook(s: Session, nc: Ncclient, hostname: string, port: Option<int>): (r: Step<bool>)
    ensures r.session.host == Some(hostname)
    ensures port.Some? && port.value != 0 ==> r.session.port == port
    ensures port.None? || port.value == 0 ==> r.session.port == Some(DefaultPort)
    ensures r.session.account == s.account && r.session.response == s.response
    ensures r.notified == []
    ensures match nc.connect(HandshakeArgs(r.session, nc))
            case Connected(h) => r.outcome == Ok(true) && r.session.manager == Some(h)
            case AuthRejected => r.outcome == Ok(true) && r.session.manager.None?
            case Refused(why) => r.outcome == Err(TransportFailure(why)) && r.session.manager == s.manager
  {
    var s1 := s.(host := Some(hostname),
                 port := if port.None? || port.value == 0 then Some(DefaultPort) else port);
    match ConnectAndLogin(s1, nc)
    case Ok(h) => Step(s1.(manager := Some(h)), Ok(true), [])
    case Err(AuthenticationFailed) => Step(s1.(manager := None), Ok(true), [])
    case Err(e) => Step(s1, Err(e), [])
  }

  /** The text a reply is normalised to: the XML of an RPC reply, the string
      form of anything else. */
  function Normalize(reply: Reply): string {
    match reply
    case RpcReply(xml) => xml
    case Other(text) => text
  }

  /** The line subscribers receive for a response. */
  function NotificationOf(response: string): string {
    response + "\n"
  }

  /** Records a reply as the response and hands it, line-terminated, to the
      subscribers exactly once; nothing else about the adapter changes. */
  function GetResponse(s: Session, reply: Reply): (r: Step<()>)
    ensures r.outcome.Ok?
    ensures r.session.response.Some?
    ensures reply.RpcReply? ==> r.session.response.value == reply.xml
    ensures reply.Other? ==> r.session.response.value == reply.text
    ensures r.notified == [r.session.response.value + "\n"]
    ensures r.session.(response := s.response) == s
  {
    var s1 := s.(response := Some(Normalize(reply)));
    Step(s1, Ok(()), [NotificationOf(Normalize(reply))])
  }

  /** Sends one request. The payload is converted to XML first (a malformed
      payload fails before the session is looked at), then sent through the
      manager (failing with an AttributeError when there is none). A reply is
      always recorded and notified; it is returned unless `ignoreResult`. */
  function Dispatch(s: Session, nc: Ncclient, data: string, ignoreResult: bool): (r: Step<Option<string>>)
    ensures r.outcome.Ok? <==>
              nc.toEle(data).Ok? && HasSession(s) && nc.dispatch(s.manager.value, nc.toEle(data).value).Ok?
    ensures nc.toEle(data).Err? ==> r.outcome == Err(MalformedXml(nc.toEle(data).error))
    ensures nc.toEle(data).Ok? && HasSession(s) && nc.dispatch(s.manager.value, nc.toEle(data).value).Err? ==>
              r.outcome == Err(TransportFailure(nc.dispatch(s.manager.value, nc.toEle(data).value).error))
    ensures nc.toEle(data).Ok? && !HasSession(s) ==> r.outcome == Err(NoAttribute("NoneType", "dispatch"))
    ensures r.outcome.Err? ==> r.session == s && r.notified == []
    ensures r.outcome.Ok? ==>
              && r.session == GetResponse(s, nc.dispatch(s.manager.value, nc.toEle(data).value).value).session
              && r.notified == [r.session.response.value + "\n"]
              && (if ignoreResult then r.outcome.value.None? else r.outcome.value == r.session.response)
  {
    match nc.toEle(data)
    case Err(reason) => Step(s, Err(MalformedXml(reason)), [])
    case Ok(element) =>
      if s.manager.None? then
        Step(s, Err(NoAttribute("NoneType", "dispatch")), [])
      else
        match nc.dispatch(s.manager.value, element)
        case Err(reason) => Step(s, Err(TransportFailure(reason)), [])
        case Ok(reply) =>
          var g := GetResponse(s, reply);
          Step(g.session, Ok(if ignoreResult then None else g.session.response), g.notified)
  }

  /** Authenticates with `account`. With a session already held, nothing
      happens. Otherwise the account is stored first, then the handshake runs
      with it; its failure, rejection included, escapes. */
  function Login(s: Session, nc: Ncclient, account: Option<Account>): (r: Step<()>)
    ensures r.notified == []
    ensures HasSession(s) ==> r.session == s && r.outcome.Ok?
    ensures !HasSession(s) ==>
              && r.session.account == account
              && r.session.host == s.host && r.session.port == s.port
              && r.session.response == s.response
    ensures !HasSession(s) ==>
              (r.outcome.Ok? <==> nc.connect(HandshakeArgs(s.(account := account), nc)).Connected?)
    ensures !HasSession(s) && r.outcome.Ok? ==>
              r.session.manager == Some(nc.connect(HandshakeArgs(s.(account := account), nc)).handle)
    ensures r.outcome.Err? ==> !HasSession(r.session)
    ensures !HasSession(s) ==>
              match nc.connect(HandshakeArgs(s.(account := account), nc))
              case Connected(h) => r.outcome == Ok(()) && r.session.manager == Some(h)
              case AuthRejected => r.outcome == Err(AuthenticationFailed)
              case Refused(why) => r.outcome == Err(TransportFailure(why))
  {
    if s.manager.Some? then
      Step(s, Ok(()), [])
    else
      var s1 := s.(account := account);
      match ConnectAndLogin(s1, nc)
      case Ok(h) => Step(s1.(manager := Some(h)), Ok(()), [])
      case Err(e) => Step(s1, Err(e), [])
  }

  /** Sends a request whose reply is wanted only by the subscribers: it
      returns `None` while notifying exactly once. */
  function Send(s: Session, nc: Ncclient, data: string): (r: Step<Option<string>>)
    ensures r.outcome.Ok? ==> r.outcome.value.None? && |r.notified| == 1
    ensures r.outcome.Ok? <==> Dispatch(s, nc, data, false).outcome.Ok?
    ensures r.outcome.Err? ==> r.outcome.error == Dispatch(s, nc, data, false).outcome.error
    ensures r.session == Dispatch(s, nc, data, false).session
    ensures r.notified == Dispatch(s, nc, data, false).notified
    ensures !HasSession(s) ==> r.outcome.Err?
  {
    Dispatch(s, nc, data, true)
  }

  /** Runs a command and returns the pair (0, response), where the response is
      the notified line without its terminator. */
  function Execute(s: Session, nc: Ncclient, command: string): (r: Step<(int, string)>)
    ensures r.outcome.Ok? ==>
              && r.outcome.value.0 == 0
              && r.notified == [r.outcome.value.1 + "\n"]
              && r.session.response == Some(r.outcome.value.1)
    ensures r.outcome.Ok? <==> Dispatch(s, nc, command, false).outcome.Ok?
    ensures r.outcome.Err? ==> r.outcome.error == Dispatch(s, nc, command, false).outcome.error
    ensures r.session == Dispatch(s, nc, command, false).session
    ensures r.notified == Dispatch(s, nc, command, false).notified
    ensures r.outcome.Err? ==> r.notified == []
    ensures !HasSession(s) ==> r.outcome.Err?
  {
    var d := Dispatch(s, nc, command, false);
    if d.outcome.Ok? then Step(d.session, Ok((0, d.outcome.value.value)), d.notified)
    else Step(d.session, Err(d.outcome.error), d.notified)
  }

  /** Closes the session through the manager, which must exist. The adapter
      keeps its manager afterwards; whether a second close fails is up to the
      library. */
  function Close(s: Session, nc: Ncclient, force: bool): (r: Step<()>)
    ensures r.session == s && r.notified == []
    ensures !HasSession(s) ==> r.outcome == Err(NoAttribute("NoneType", "close_session"))
    ensures r.outcome.Ok? <==> HasSession(s) && nc.closeSession(s.manager.value).None?
    ensures HasSession(s) && nc.closeSession(s.manager.value).Some? ==>
              r.outcome == Err(TransportFailure(nc.closeSession(s.manager.value).value))
  {
    match s.manager
    case None => Step(s, Err(NoAttribute("NoneType", "close_session")), [])
    case Some(h) =>
      match nc.closeSession(h)
      case None => Step(s, Ok(()), [])
      case Some(reason) => Step(s, Err(TransportFailure(reason)), [])
  }
}

=== FILE: trace.dfy ===
/** A caller driving one adapter through a sequence of calls, catching each
    exception and carrying on with the state the failed call left. Each call
    meets the library as it is at that moment, so the library may answer the
    same request differently from one call to the next. The
    lemmas here state what holds across any such sequence: subscribers see
    one line per successful request, in order, the last line always matches
    the stored response, and a held session survives everything but a new
    connect. */
module SessionTrace {
  import opened Wrappers
  import opened Transport
  import opened Credentials
  import opened Netconf

  /** One call on the adapter. */
  datatype Op =
    | ConnectTo(hostname: string, port: Option<int>)
    | LoginAs(account: Option<Account>)
    | SendData(data: string)
    | ExecuteCommand(command: string)
    | CloseSession(force: bool)

  /** Whether the call sends a request through the manager. */
  predicate IsRequest(op: Op) {
    op.SendData? || op.ExecuteCommand?
  }

  /** One call together with the library as it behaves during that call. */
  datatype Call = Call(nc: Ncclient, op: Op)

  /** What one call did, with its return value forgotten. */
  datatype Effect = Effect(session: Session, ok: bool, notified: seq<string>)

  /** Performs one call. Only a successful request notifies, and then exactly
      once; only connect and login can change the manager or the account,
      and once a session is held only connect can; only connect changes host
      and port. */
  function Apply(s: Session, nc: Ncclient, op: Op): (e: Effect)
    ensures |e.notified| == (if IsRequest(op) && e.ok then 1 else 0)
    ensures !op.ConnectTo? ==> e.session.host == s.host && e.session.port == s.port
    ensures !op.ConnectTo? && !op.LoginAs? ==>
              e.session.manager == s.manager && e.session.account == s.account
    ensures !op.ConnectTo? && HasSession(s) ==>
              e.session.manager == s.manager && e.session.account == s.account
    ensures !IsRequest(op) ==> e.session.response == s.response
    ensures IsRequest(op) && e.ok ==>
              e.session.response.Some? && e.notified == [e.session.response.value + "\n"]
  {
    match op
    case ConnectTo(hostname, port) =>
      var st := ConnectHook(s, nc, hostname, port);
      Effect(st.session, st.outcome.Ok?, st.notified)
    case LoginAs(account) =>
      var st := Login(s, nc, account);
      Effect(st.session, st.outcome.Ok?, st.notified)
    case SendData(data) =>
      var st := Send(s, nc, data);
      Effect(st.session, st.outcome.Ok?, st.notified)
    case ExecuteCommand(command) =>
      var st := Execute(s, nc, command);
      Effect(st.session, st.outcome.Ok?, st.notified)
    case CloseSession(force) =>
      var st := Close(s, nc, force);
      Effect(st.session, st.outcome.Ok?, st.notified)
  }

  /** The result of a sequence of calls: the final state, every line the
      subscribers received, and which calls succeeded. */
  datatype Trace = Trace(session: Session, log: seq<string>, succeeded: seq<bool>)

  /** Performs `calls` in order, starting from `s`. */
  function Run(s: Session, calls: seq<Call>): (t: Trace)
    ensures |t.succeeded| == |calls|
    decreases |calls|
  {
    if calls == [] then Trace(s, [], [])
    else
      var t := Run(s, calls[..|calls| - 1]);
      var c := calls[|calls| - 1];
      var e := Apply(t.session, c.nc, c.op);
      Trace(e.session, t.log + e.notified, t.succeeded + [e.ok])
  }

  /** The number of calls that were requests and succeeded. */
  function SuccessfulRequests(calls: seq<Call>, succeeded: seq<bool>): nat
    requires |succeeded| == |calls|
    decreases |calls|
  {
    if calls == [] then 0
    else
      SuccessfulRequests(calls[..|calls| - 1], succeeded[..|calls| - 1])
        + (if IsRequest(calls[|calls| - 1].op) && succeeded[|calls| - 1] then 1 else 0)
  }

  /** Every line ends with the terminator, and the last line is the stored
      response with the terminator appended. */
  predicate Coherent(s: Session, log: seq<string>) {
    && (forall i :: 0 <= i < |log| ==> |log[i]| > 0 && log[i][|log[i]| - 1] == '\n')
    && (|log| > 0 ==> s.response.Some? && log[|log| - 1] == s.response.value + "\n")
  }

  /** Subscribers receive exactly one line per successful request: a request
      ignored by its caller still counts, a failed one does not. */
  lemma {:induction false} OneLinePerSuccessfulRequest(s: Session, calls: seq<Call>)
    ensures |Run(s, calls).log| == SuccessfulRequests(calls, Run(s, calls).succeeded)
    decreases |calls|
  {
    if calls != [] {
      var init := calls[..|calls| - 1];
      OneLinePerSuccessfulRequest(s, init);
      assert Run(s, calls).succeeded[..|calls| - 1] == Run(s, init).succeeded;
    }
  }

  /** One more call extends a run by that call's effect. */
  lemma RunSnoc(s: Session, calls: seq<Call>, c: Call)
    ensures var t := Run(s, calls);
            var e := Apply(t.session, c.nc, c.op);
            Run(s, calls + [c]) == Trace(e.session, t.log + e.notified, t.succeeded + [e.ok])
  {
    assert (calls + [c])[..|calls + [c]| - 1] == calls;
  }

  /** Running two sequences of calls one after the other is running their
      concatenation: the lines of the later calls follow those of the
      earlier ones, with nothing dropped, added or reordered. */
  lemma {:induction false} RunComposes(s: Session, first: seq<Call>, second: seq<Call>)
    ensures Run(s, first + second).session == Run(Run(s, first).session, second).session
    ensures Run(s, first + second).log == Run(s, first).log + Run(Run(s, first).session, second).log
    ensures Run(s, first + second).succeeded ==
              Run(s, first).succeeded + Run(Run(s, first).session, second).succeeded
    decreases |second|
  {
    if second == [] {
      assert first + second == first;
    } else {
      var init := second[..|second| - 1];
      var c := second[|second| - 1];
      assert second == init + [c];
      assert first + second == (first + init) + [c];
      RunComposes(s, first, init);
      RunSnoc(s, first + init, c);
      RunSnoc(Run(s, first).session, init, c);
    }
  }

  /** One call keeps the log coherent with the stored response. */
  lemma CoherentStep(s: Session, nc: Ncclient, op: Op, log: seq<string>)
    requires Coherent(s, log)
    ensures Coherent(Apply(s, nc, op).session, log + Apply(s, nc, op).notified)
  {
  }

  /** Starting from a fresh adapter, or any coherent one, the stored response
      and what the subscribers last saw never drift apart, whatever calls are
      made and whichever of them fail. */
  lemma {:induction false} LogStaysCoherent(s: Session, calls: seq<Call>, log0: seq<string>)
    requires Coherent(s, log0)
    ensures Coherent(Run(s, calls).session, log0 + Run(s, calls).log)
    decreases |calls|
  {
    if calls != [] {
      var init := calls[..|calls| - 1];
      LogStaysCoherent(s, init, log0);
      var t := Run(s, init);
      var c := calls[|calls| - 1];
      CoherentStep(t.session, c.nc, c.op, log0 + t.log);
      var e := Apply(t.session, c.nc, c.op);
      assert log0 + Run(s, calls).log == (log0 + t.log) + e.notified;
    }
  }

  /** A fresh adapter starts coherent with an empty log. */
  lemma FreshAdapterCoherent(calls: seq<Call>)
    ensures Coherent(Run(Init(), calls).session, Run(Init(), calls).log)
  {
    LogStaysCoherent(Init(), calls, []);
    assert [] + Run(Init(), calls).log == Run(Init(), calls).log;
  }

  /** Once a session is held, no login, request or close replaces it or the
      account it was opened with, and host and port stay put: only a new
      connect can. */
  lemma {:induction false} SessionSticksWithoutConnect(s: Session, calls: seq<Call>)
    requires HasSession(s)
    requires forall i :: 0 <= i < |calls| ==> !calls[i].op.ConnectTo?
    ensures Run(s, calls).session.manager == s.manager
    ensures Run(s, calls).session.account == s.account
    ensures Run(s, calls).session.host == s.host && Run(s, calls).session.port == s.port
    decreases |calls|
  {
    if calls != [] {
      SessionSticksWithoutConnect(s, calls[..|calls| - 1]);
    }
  }

  /** The same request sent twice over the same session, against a library
      that answers the same way, is normalised to the same text both times,
      and subscribers see the same line twice. */
  lemma DispatchIsStable(s: Session, nc: Ncclient, data: string)
    requires Apply(s, nc, ExecuteCommand(data)).ok
    ensures var first := Apply(s, nc, ExecuteCommand(data));
            var second := Apply(first.session, nc, ExecuteCommand(data));
            second.ok && second.notified == first.notified && second.session == first.session
  {
  }
}

=== FILE: transport.dfy ===
/** The ncclient library as the adapter sees it: a handshake that yields a
    session handle, XML conversion, a synchronous RPC call and a session
    teardown. Their implementation is not part of this model; each is a total
    function the caller supplies, so every outcome the library can produce is
    covered by some choice of functions. */
module Transport {
  import opened Wrappers

  /** An open ncclient manager. Any live manager is truthy in Python. */
  datatype Handle = Handle(id: nat)

  /** A parsed XML element, as produced by `to_ele`. */
  datatype Element = Element(tree: string)

  /** A reply from `manager.dispatch`: either an `RPCReply`, whose `.xml` is
      its text, or some other object, whose `str()` is `text`. */
  datatype Reply = RpcReply(xml: string) | Other(text: string)

  /** The arguments handed to `manager.connect`: host, port, the host key
      check flag, and the credential keyword arguments by name. */
  datatype ConnectArgs = ConnectArgs(
    host: Option<string>,
    port: Option<int>,
    hostkeyVerify: bool,
    kwargs: map<string, string>)

  /** What `manager.connect` does: return a manager, raise
      `AuthenticationError`, or raise anything else. */
  datatype ConnectOutcome = Connected(handle: Handle) | AuthRejected | Refused(reason: string)

  /** The library, as a record of functions.
      `toEle` is `to_ele` on a string (Err when it is not well-formed XML);
      `to_ele` applied to an element returns that element, so a second
      conversion is the identity.
      `dispatch` is `manager.dispatch` (Err when it raises).
      `closeSession` is `manager.close_session` (Some(reason) when it raises).
      `tempFileName` is the name the file system gives the temporary key
      file. */
  datatype Ncclient = Ncclient(
    connect: ConnectArgs -> ConnectOutcome,
    toEle: string -> Result<Element, string>,
    dispatch: (Handle, Element) -> Result<Reply, string>,
    closeSession: Handle -> Option<string>,
    tempFileName: string)

  /** The exceptions that can leave the adapter. */
  datatype Error =
    | AuthenticationFailed                    // ncclient's AuthenticationError
    | TransportFailure(reason: string)        // any other ncclient exception
    | MalformedXml(reason: string)            // `to_ele` rejected the payload
    | NoAttribute(owner: string, attr: string) // Python's AttributeError
}

=== FILE: wrappers.dfy ===
/** Optional values and results with an error side, used for Python's
    `None` and for exceptions. */
module Wrappers {

  /** `None` stands for Python's `None` or for an attribute that is absent. */
  datatype Option<+T> = None | Some(value: T)

  /** `Err` stands for an exception raised out of an operation. */
  datatype Result<+T, +E> = Ok(value: T) | Err(error: E)
}
